=== FILE: README.md ===
# DaemonSupervisor in Dafny

A model of the supervision logic of DaemonSupervisor. DaemonSupervisor is a
small Python daemon. It launches a command, watches that the launched process
stays alive, and restarts the process a bounded number of times when it dies.
The project models four things:

- the command-line validators and their defaults (`cmdargs.py`);
- the liveness probe and the launch (`is_process_running`, `start_process`);
- the bounded restart policy (`attempt_to_start_process`);
- the supervision loop (`watch_process`).

The operating system is an oracle `Env`:

- `spawn(k)` is the outcome of the k-th launch;
- `table(q, pid)` is the process table's answer to the q-th query, about `pid`.

A `Cursor` counts how much of the oracle has been used. What the supervisor
does is recorded as a trace of events:

- `CycleStart`: the "Attempting to run command" record that opens a restart cycle;
- `Launch(attempt, outcome)`;
- `Probe(pid, answer)`;
- `Sleep(seconds)`.

The properties are stated about those traces: how many launches, how they are
numbered, the total delay, when the loop restarts and when it stops.

Files and modules:

- `wrappers.dfy` (`Wrappers`): `Option` and `Result`.
- `cmdargs.dfy` (`CmdArgs`): decimal parsing, `check_string_not_empty`,
  `check_positive`, and `parse_arguments` with its defaults.
- `process.dfy` (`Process`): process status, `is_process_running` and
  `start_process` over an abstract lookup and spawn outcome.
- `trace.dfy` (`Trace`): the oracle, the events and their counts, and one
  probe against the oracle.
- `restart.dfy` (`Restart`): `attempt_to_start_process`, as a function and as
  the counted loop it is written as.
- `watch.dfy` (`Watch`): one iteration of `watch_process`, the loop, and the
  method that runs it.
  - The iteration is written for any restart policy. `Contract` collects what
    the loop needs from a policy, and `PolicyMeetsContract` shows that
    `attempt_to_start_process` keeps it.
  - The loop is written for any loop body.
  - `Run` is the loop with the body and policy of supervisor.py.

### Where the code and its comments part ways

The model follows the code in both places below.

- **The pause after the last attempt.** The comment at supervisor.py:64
  promises a pause only *between* attempts. The guard at supervisor.py:65
  (`num_of_current_attempt < args.num_attempts` inside
  `range(args.num_attempts)`) never fails. So a policy that gives up has
  slept `numAttempts * secondsBetweenRestarts`, not
  `(numAttempts - 1) * secondsBetweenRestarts`. The last thing it did was
  sleep (`Restart.ExhaustionSleepsAfterLastAttempt`).
- **Stopping without a restart.** The comment at supervisor.py:139-140 treats
  stopping as giving up after `num_attempts`. The loop probes the tracked pid
  a third time (supervisor.py:141), after the decision probe at
  supervisor.py:136. A process that dies between those two probes ends the
  loop with no restart attempted (`Watch.StopsWithoutRestart`).

## Model

| member | source | states |
|---|---|---|
| CmdArgs.CheckStringNotEmpty | cmdargs.py:7-17 | a value is accepted exactly when it is non-empty, and is then returned unchanged; the empty string is rejected with an error |
| CmdArgs.CheckPositive | cmdargs.py:20-31 | a value is accepted exactly when it parses as an integer greater than 0, and the result is that integer; an unparseable value fails at the parse step; a parsed value of 0 or less fails with a not-positive error naming the value |
| CmdArgs.ParseFormatRoundTrip | cmdargs.py:28 | the integer parser reads back the decimal notation of every integer, negative ones included |
| CmdArgs.CheckPositiveOfFormatted | cmdargs.py:28-31 | on the decimal notation of any integer n, the validator returns n when n > 0 and the not-positive error otherwise |
| CmdArgs.ParseArguments | cmdargs.py:33-52 | the command line is accepted exactly when every given-or-default option passes its validator and a non-empty command is given; on success each field is the given value or the declared default, and the numeric fields are the parsed integers; a missing command is an error |
| CmdArgs.DefaultsAccepted | cmdargs.py:37-48 | with only a command given, the three default paths pass the non-empty check and the numeric defaults '1', '3', '3' pass the positive check as 1, 3 and 3 |
| Process.IsProcessRunning | supervisor.py:96-116 | an absent or zero pid gives False; a pid the table does not know gives the falsy None; the answer is truthy exactly when the pid is real and its status is running or sleeping |
| Process.StartProcess | supervisor.py:72-93 | a pid comes back exactly when the spawn succeeded, and it is the spawned pid; a missing executable, an untokenizable command and any other failure all give None |
| Trace.ProbeStep | supervisor.py:104-116 | a falsy pid is classified False without a table query and records nothing; a real pid uses exactly one query about that pid, records it, and classifies its answer; the probe is truthy exactly when the recorded answer is live |
| Restart.LaunchAndProbe | supervisor.py:54-62 | attempt n is the oracle's next launch, recorded with number n; its pid is what start_process makes of that launch's outcome; the attempt is live exactly when that pid is real and the next table query about it answers running or sleeping; it uses one launch, and one query only when the pid is real; it sleeps nothing and opens no cycle; a live attempt ends with its live probe, and a failed one saw nothing alive |
| Restart.AttemptsSpec | supervisor.py:53-66 | attempts i+1 onwards are numbered consecutively, every pause lasts secondsBetweenRestarts, and every launch but the first comes right after a pause; they either return a pid whose probe just found it alive, after at most numAttempts - i launches, with no earlier live probe and exactly one pause per earlier failure; or they use all numAttempts - i launches, see nothing alive, and make exactly numAttempts - i pauses; every launch and probe recorded is the oracle's answer at its turn, the cursor ends just past them, and each probe is about the pid of the launch right before it |
| Restart.AttemptsReplay | supervisor.py:53-60 | the events the attempts record are the launches and probes the oracle answers, in turn order, and each probe is about the pid of the launch right before it; a launch with a real pid is always probed next |
| Restart.RestartPolicy | supervisor.py:41-69 | one call opens one cycle; its attempts are numbered 1, 2, ... and there are at most numAttempts of them; every pause lasts secondsBetweenRestarts and every launch after the first comes right after a pause; the recorded launches and probes are the oracle's answers in order and each probe is about the pid just launched; a pid result is real, probed alive right after its launch, is the first pid probed alive, and comes after exactly one pause per failed attempt; None is returned exactly when nothing probed alive, and then after exactly numAttempts launches and numAttempts pauses |
| Restart.ExhaustionSleepsAfterLastAttempt | supervisor.py:64-66 | when the policy gives up, its last event is a pause, and the total delay is (numAttempts - 1) pauses plus one more |
| Restart.FirstAttemptLive | supervisor.py:53-60 | when the first launch probes alive, its pid is returned at once: one launch, one query, attempt number 1, no pause |
| Restart.SecondAttemptLive | supervisor.py:53-66 | a first launch that yields no pid is followed by one pause and a second launch; if that launch yields pid p and the next query finds p alive, the policy returns p after two launches and one query, numbered 1 and 2 |
| Restart.HopelessExhausts | supervisor.py:53-69 | when no launch can ever be seen alive, or no launch can succeed, the policy returns None |
| Restart.AttemptToStartProcess | supervisor.py:41-69 | the counted loop with its early return computes exactly the policy's result, cursor and trace |
| Watch.PolicyMeetsContract | supervisor.py:41-69 | from every starting point, attempt_to_start_process keeps what the loop relies on: one cycle, consecutive attempt numbers within budget, launches spaced by pauses of secondsBetweenRestarts, and a real pid or a fully spent budget with numAttempts pauses |
| Watch.StepRestartsIffDead | supervisor.py:131-137 | an iteration runs the restart policy exactly when the decision probe does not find the tracked pid alive: always without a pid, otherwise exactly when the iteration's second query answers not alive; after a restart the loop tracks the pid the policy returned, from the cursor just past the two probes; without a restart the pid is kept and nothing is launched; at most one cycle runs, within budget |
| Watch.StepTracksRestart | supervisor.py:135-136 | when the decision probe does not find the tracked pid alive, the iteration's next pid is the pid the policy returns from the cursor past the two probes, and the policy's trace follows the probes unchanged |
| Watch.DeadProcessRestarted | supervisor.py:130-144 | a tracked process found dead at the decision probe is replaced by the policy's result, whose trace follows the two probes; the loop keeps going exactly when that result is a real pid and the next query finds it alive |
| Watch.StepContinuesIffLive | supervisor.py:139-145 | an iteration keeps the loop going only after a probe that found the tracked pid alive, and then sleeps checkInterval; it stops either with no pid after a full cycle of numAttempts launches, numAttempts pauses and a total delay of numAttempts times secondsBetweenRestarts, or right after a probe that found the tracked pid not alive |
| Watch.FirstTickRestarts | supervisor.py:127-137 | the loop starts without a pid, so its first iteration opens a restart cycle and launches attempt 1 before any table query |
| Watch.StopsWithoutRestart | supervisor.py:136-144 | a pid alive at the decision probe and gone at the next probe ends the loop with that pid, no cycle and no launch, whatever the policy |
| Watch.StepBudget | supervisor.py:136-137 | one iteration runs at most one restart cycle, numbers its attempts from 1, and launches at most numAttempts processes, none outside a cycle |
| Watch.LoopBudget | supervisor.py:131-145 | for any loop body that keeps within one cycle per pass, fuel passes run at most fuel cycles and at most numAttempts times as many launches as cycles |
| Watch.LoopPasses | supervisor.py:131-145 | for any loop body that keeps within one cycle per pass, the loop's trace is the concatenation of at most fuel pass traces, each with at most one cycle whose attempts are numbered from 1 and number at most numAttempts |
| Watch.LaunchesPerCycle | supervisor.py:131-145 | the supervisor's trace splits into one segment per iteration; each segment runs at most one restart cycle, numbers its attempts afresh from 1 and launches at most numAttempts processes, and launches only inside a cycle; over the run there are at most fuel cycles |
| Watch.GivesUpWhenHopeless | supervisor.py:127-145 | when no launch can ever be seen alive or succeed, the supervisor stops in its first iteration, without a pid, after one cycle of numAttempts launches, each but the first right after a pause of secondsBetweenRestarts, and numAttempts pauses in all |
| Watch.LongRunningLaunchesOnce | supervisor.py:127-145 | a first launch that stays alive is the only launch: after any number of iterations the loop still runs, tracks that pid, has run one cycle, and has slept checkInterval per iteration |
| Watch.StepWhileLive | supervisor.py:131-142 | an iteration on a pid that every query finds alive keeps the pid, launches nothing and sleeps checkInterval, whatever the restart policy |
| Watch.SteadyLoop | supervisor.py:131-142 | steady passes compose: fuel of them keep tracking the pid, launch nothing and sleep fuel times checkInterval |
| Watch.MonitoringSteady | supervisor.py:131-142 | while the tracked process stays alive, the supervisor only probes and sleeps: no cycle, no launch, checkInterval per iteration |
| Watch.LoopSnoc | supervisor.py:131 | one more pass of the loop appends that pass's events and state to the record of the earlier passes |
| Watch.LoopHalts | supervisor.py:131 | once the loop has stopped, further passes change neither its state nor its trace |
| Watch.Supervise | supervisor.py:131-145 | one pass of the loop body as written, calling the restart method, computes exactly one iteration of the model |
| Watch.WatchProcess | supervisor.py:119-145 | the loop as written, started with no pid and stopped after at most maxTicks iterations, yields exactly the supervisor's run |

## Left out

- Daemonization is not modelled: `start_daemon`, `daemon.DaemonContext`, `PIDLockFile`, `create_work_dir` and `get_context_pid`. It is filesystem and process-detach I/O. The exit-code test at supervisor.py:218-219 can never succeed, because `start_daemon` returns False or None.
- `init_logger` and the log records are not modelled. The records that mark what the supervisor does become trace events: `CycleStart`, the attempt numbers in `Launch`, and `Probe`. Formatting and sinks are left out.
- `psutil`, `subprocess.Popen` and `shlex.split` are foreign code. A launch is one opaque `SpawnOutcome` from the oracle, and a process-table query is one `Lookup` answer.
- `process.status()` is read twice in `is_process_running` (supervisor.py:111 and 116), and the model gives both reads the same answer.
- Real time and the `float(...)` conversions are left out. A sleep is an event with a whole number of seconds.
- `argparse` is not modelled: its error messages, the order in which it reports errors, and its exit behaviour. `ParseArguments` reports the first failing argument in declaration order.
- CmdArgs.ParseInt: Python's `int()` also accepts surrounding whitespace, `_` digit separators and non-ASCII decimal digits. The model accepts only an optional sign followed by ASCII digits.
- Watch.Run: `watch_process` loops for as long as the process keeps probing alive. `Run` and `Loop` stop after a given number of iterations, so a run that never stops is described by its finite prefixes. `WatchProcess` takes that bound as `maxTicks`.
- Watch.WatchProcess: it does not restate the launch budget in its own contract. The budget is stated about `Run` by `Watch.LaunchesPerCycle`, and the method's result equals `Run`.
- Calling the probe twice with the same answer gives the same result, because `IsProcessRunning` is a function. No lemma states this.

=== FILE: cmdargs.dfy ===
/** The command-line validators of the supervisor (cmdargs.py).

    `argparse` itself is not modelled: a raw argument is either given on the
    command line or absent, an absent option takes its declared string
    default, and the default goes through the same validator as a given value.
    Python's `int()` is modelled by `ParseInt`, an optional sign followed by
    one or more ASCII decimal digits. */
module CmdArgs {
  import opened Wrappers

  type Pos = n: int | n > 0 witness 1

  /** Why a command-line value is rejected. */
  datatype ArgError =
    | EmptyString                 // check_string_not_empty on ""
    | NotAnInteger(text: string)  // int(value) raised ValueError
    | NotPositive(text: string)   // check_positive on a value <= 0
    | MissingCommand              // the required positional argument is absent

  /** The validated configuration `parse_arguments` hands to the supervisor. */
  datatype Config = Config(
    workDir: string,
    pidFile: string,
    logFile: string,
    checkInterval: Pos,
    numAttempts: Pos,
    secondsBetweenRestarts: Pos,
    command: string)

  const DefaultWorkDir: string := "/var/lib/supervisor_daemon"
  const DefaultPidFile: string := "/var/run/supervisor_daemon.pid"
  const DefaultLogFile: string := "/var/log/supervisor_daemon.log"
  const DefaultCheckInterval: string := "1"
  const DefaultNumAttempts: string := "3"
  const DefaultSecondsBetweenRestarts: string := "3"

  // ---------------------------------------------------------------------
  // Decimal integers

  predicate IsDigit(c: char) {
    '0' <= c <= '9'
  }

  predicate AllDigits(s: string) {
    forall i :: 0 <= i < |s| ==> IsDigit(s[i])
  }

  function DigitValue(c: char): nat
    requires IsDigit(c)
  {
    c as int - '0' as int
  }

  function DigitChar(d: nat): (c: char)
    requires d < 10
    ensures IsDigit(c) && DigitValue(c) == d
  {
    ('0' as int + d) as char
  }

  /** The value of a digit string, most significant digit first. */
  function DigitsValue(s: string): nat
    requires AllDigits(s)
  {
    if |s| == 0 then 0 else 10 * DigitsValue(s[..|s| - 1]) + DigitValue(s[|s| - 1])
  }

  /** `int(s)`: an optional sign and at least one decimal digit, or `None`
      where Python raises `ValueError`. */
  function ParseInt(s: string): Option<int> {
    if |s| > 0 && (s[0] == '+' || s[0] == '-') then
      var digits := s[1..];
      if |digits| > 0 && AllDigits(digits) then
        Some(if s[0] == '-' then 0 - DigitsValue(digits) as int else DigitsValue(digits))
      else None
    else if |s| > 0 && AllDigits(s) then Some(DigitsValue(s))
    else None
  }

  /** Decimal notation of a natural number, without leading zeros. */
  function FormatDigits(n: nat): (s: string)
    ensures |s| > 0 && AllDigits(s)
  {
    if n < 10 then [DigitChar(n)] else FormatDigits(n / 10) + [DigitChar(n % 10)]
  }

  /** Decimal notation of an integer, as `str(n)` writes it. */
  function FormatInt(n: int): string {
    if n < 0 then "-" + FormatDigits(-n) else FormatDigits(n)
  }

  lemma {:induction false} DigitsRoundTrip(n: nat)
    ensures DigitsValue(FormatDigits(n)) == n
  {
    if n >= 10 {
      var s := FormatDigits(n);
      assert s[..|s| - 1] == FormatDigits(n / 10);
      DigitsRoundTrip(n / 10);
    }
  }

  /** Every integer's decimal notation parses back to that integer. */
  lemma ParseFormatRoundTrip(n: int)
    ensures ParseInt(FormatInt(n)) == Some(n)
  {
    if n < 0 {
      var s := FormatInt(n);
      assert s[1..] == FormatDigits(-n);
      DigitsRoundTrip(-n);
    } else {
      DigitsRoundTrip(n);
    }
  }

  // ---------------------------------------------------------------------
  // Validators

  /** `check_string_not_empty`: the value itself, or an error for "". */
  function CheckStringNotEmpty(value: string): (r: Result<string, ArgError>)
    ensures r.Success? <==> |value| > 0
    ensures r.Success? ==> r.value == value
    ensures r.Failure? ==> r.error == EmptyString
  {
    if value == [] then Failure(EmptyString) else Success(value)
  }

  /** `check_positive`: the parsed integer when it is greater than zero. */
  function CheckPositive(value: string): (r: Result<Pos, ArgError>)
    ensures r.Success? <==> ParseInt(value).Some? && ParseInt(value).value > 0
    ensures r.Success? ==> ParseInt(value) == Some(r.value as int)
    ensures ParseInt(value).None? ==> r == Failure(NotAnInteger(value))
    ensures ParseInt(value).Some? && r.Failure? ==> r == Failure(NotPositive(value))
  {
    match ParseInt(value)
    case None => Failure(NotAnInteger(value))
    case Some(n) => if n <= 0 then Failure(NotPositive(value)) else Success(n)
  }

  /** The validators accept the notation of exactly the positive integers,
      and give back the integer written. */
  lemma CheckPositiveOfFormatted(n: int)
    ensures CheckPositive(FormatInt(n))
         == if n > 0 then Success(n as Pos) else Failure(NotPositive(FormatInt(n)))
  {
    ParseFormatRoundTrip(n);
  }

  // ---------------------------------------------------------------------
  // parse_arguments

  /** The raw command line: each option is given or absent. */
  datatype RawArgs = RawArgs(
    workDir: Option<string>,
    pidFile: Option<string>,
    logFile: Option<string>,
    checkInterval: Option<string>,
    numAttempts: Option<string>,
    secondsBetweenRestarts: Option<string>,
    command: Option<string>)

  function OrDefault(given: Option<string>, default: string): string {
    match given
    case Some(v) => v
    case None => default
  }

  /** True when every supplied-or-default value passes its validator. */
  predicate Acceptable(raw: RawArgs) {
    && |OrDefault(raw.workDir, DefaultWorkDir)| > 0
    && |OrDefault(raw.pidFile, DefaultPidFile)| > 0
    && |OrDefault(raw.logFile, DefaultLogFile)| > 0
    && ParsesPositive(OrDefault(raw.checkInterval, DefaultCheckInterval))
    && ParsesPositive(OrDefault(raw.numAttempts, DefaultNumAttempts))
    && ParsesPositive(OrDefault(raw.secondsBetweenRestarts, DefaultSecondsBetweenRestarts))
    && raw.command.Some? && |raw.command.value| > 0
  }

  predicate ParsesPositive(s: string) {
    ParseInt(s).Some? && ParseInt(s).value > 0
  }

  /** `parse_arguments`: the validated configuration, or the error of the
      first rejected argument in declaration order. */
  function ParseArguments(raw: RawArgs): (r: Result<Config, ArgError>)
    ensures r.Success? <==> Acceptable(raw)
    ensures r.Success? ==>
      && r.value.workDir == OrDefault(raw.workDir, DefaultWorkDir)
      && r.value.pidFile == OrDefault(raw.pidFile, DefaultPidFile)
      && r.value.logFile == OrDefault(raw.logFile, DefaultLogFile)
      && Some(r.value.checkInterval as int) == ParseInt(OrDefault(raw.checkInterval, DefaultCheckInterval))
      && Some(r.value.numAttempts as int) == ParseInt(OrDefault(raw.numAttempts, DefaultNumAttempts))
      && Some(r.value.secondsBetweenRestarts as int)
         == ParseInt(OrDefault(raw.secondsBetweenRestarts, DefaultSecondsBetweenRestarts))
      && raw.command == Some(r.value.command)
    ensures raw.command.None? ==> r.Failure?
  {
    var workDir :- CheckStringNotEmpty(OrDefault(raw.workDir, DefaultWorkDir));
    var pidFile :- CheckStringNotEmpty(OrDefault(raw.pidFile, DefaultPidFile));
    var logFile :- CheckStringNotEmpty(OrDefault(raw.logFile, DefaultLogFile));
    var checkInterval :- CheckPositive(OrDefault(raw.checkInterval, DefaultCheckInterval));
    var numAttempts :- CheckPositive(OrDefault(raw.numAttempts, DefaultNumAttempts));
    var seconds :- CheckPositive(OrDefault(raw.secondsBetweenRestarts, DefaultSecondsBetweenRestarts));
    if raw.command.None? then Failure(MissingCommand)
    else
      var command :- CheckStringNotEmpty(raw.command.value);
      Success(Config(workDir, pidFile, logFile, checkInterval, numAttempts, seconds, command))
  }

  /** With only the command given, every default passes its validator and
      the numeric defaults read as 1, 3 and 3. */
  lemma DefaultsAccepted(command: string)
    requires |command| > 0
    ensures ParseArguments(RawArgs(None, None, None, None, None, None, Some(command)))
         == Success(Config(DefaultWorkDir, DefaultPidFile, DefaultLogFile, 1, 3, 3, command))
  {
    assert ParseInt(DefaultCheckInterval) == Some(1) by {
      assert DefaultCheckInterval == FormatInt(1);
      ParseFormatRoundTrip(1);
    }
    assert ParseInt(DefaultNumAttempts) == Some(3) by {
      assert DefaultNumAttempts == FormatInt(3);
      ParseFormatRoundTrip(3);
    }
  }
}

=== FILE: process.dfy ===
/** Liveness classification and launching of the supervised command
    (supervisor.py, `is_process_running` and `start_process`).

    The operating system is abstract: a process-table query answers with a
    `Lookup`, and a spawn (tokenising the command plus `Popen`) with a
    `SpawnOutcome`. */
module Process {
  import opened Wrappers

  /** Run states the process table reports (psutil's `STATUS_*` values). */
  datatype Status =
    | Running | Sleeping | DiskSleep | Stopped | TracingStop | Zombie | Dead
    | WakeKill | Waking | Parked | Idle | Locked | Waiting | Suspended

  /** One answer of the process table for a pid. */
  datatype Lookup = NoSuchProcess | Found(status: Status)

  /** What one spawn of the command does: a new process with its pid, or
      one of the errors `start_process` catches. */
  datatype SpawnOutcome =
    | Spawned(pid: nat)
    | CommandNotFound     // FileNotFoundError from Popen
    | MalformedCommand    // ValueError from the tokeniser (unbalanced quote)
    | LaunchFailure       // any other exception

  /** A process counts as alive while it runs or sleeps. */
  predicate IsLiveStatus(s: Status) {
    s == Running || s == Sleeping
  }

  predicate LiveAnswer(l: Lookup) {
    l.Found? && IsLiveStatus(l.status)
  }

  /** Python truthiness of a pid: `None` and `0` are falsy. */
  predicate HasPid(pid: Option<nat>) {
    pid.Some? && pid.value != 0
  }

  /** Python truthiness of a probe result: `False` and `None` are falsy. */
  predicate Truthy(b: Option<bool>) {
    b == Some(true)
  }

  /** `is_process_running`: `False` for a falsy pid, `None` when the table
      has no such process, otherwise whether the status is running or
      sleeping. `lookup` is what the table would answer; it is not
      consulted for a falsy pid. */
  function IsProcessRunning(pid: Option<nat>, lookup: Lookup): (r: Option<bool>)
    ensures !HasPid(pid) ==> r == Some(false)
    ensures HasPid(pid) && lookup.NoSuchProcess? ==> r.None?
    ensures Truthy(r) <==> HasPid(pid) && LiveAnswer(lookup)
  {
    if pid.None? || pid.value == 0 then Some(false)
    else
      match lookup
      case NoSuchProcess => None
      case Found(status) => Some(status in [Running, Sleeping])
  }

  /** `start_process`: the pid of the new process, or `None` for every
      caught error; nothing is re-raised. */
  function StartProcess(outcome: SpawnOutcome): (pid: Option<nat>)
    ensures pid.Some? <==> outcome.Spawned?
    ensures outcome.Spawned? ==> pid == Some(outcome.pid)
  {
    match outcome
    case Spawned(p) => Some(p)
    case CommandNotFound => None
    case MalformedCommand => None
    case LaunchFailure => None
  }
}

=== FILE: restart.dfy ===
/** The bounded restart policy (supervisor.py, `attempt_to_start_process`).

    Up to `numAttempts` launches, each followed by a probe of the new pid.
    The first pid that probes alive is returned at once. After a failed
    attempt the policy sleeps `secondsBetweenRestarts` when the attempt
    index is below `numAttempts`, which inside `range(numAttempts)` always
    holds: the policy also sleeps after the last failed attempt. */
module Restart {
  import opened Wrappers
  import opened CmdArgs
  import opened Process
  import opened Trace

  /** What the policy returns, the oracle it leaves, and what it did. */
  datatype Restarted = Restarted(pid: Option<nat>, cursor: Cursor, trace: seq<Event>)

  function Then(prefix: seq<Event>, r: Restarted): Restarted {
    Restarted(r.pid, r.cursor, prefix + r.trace)
  }

  lemma ThenThen(a: seq<Event>, b: seq<Event>, r: Restarted)
    ensures Then(a, Then(b, r)) == Then(a + b, r)
  {
    assert a + (b + r.trace) == (a + b) + r.trace;
  }

  /** `t` ends with the launch of `p` followed by a probe that found `p` alive. */
  predicate EndsLive(t: seq<Event>, p: nat) {
    && |t| >= 2
    && t[|t| - 2].Launch? && t[|t| - 2].outcome == Spawned(p)
    && t[|t| - 1].Probe? && t[|t| - 1].pid == p && LiveAnswer(t[|t| - 1].answer)
  }

  /** The events of one attempt: its launch, then only probes. */
  predicate SingleLaunch(t: seq<Event>) {
    |t| > 0 && t[0].Launch? && OnlyProbes(t[1..])
  }

  /** Launches and probes come in pairs: every launch of a real pid is
      followed at once by a probe of that pid, and every probe comes right
      after the launch of the pid it asks about. */
  predicate Paired(t: seq<Event>) {
    forall j :: 0 <= j < |t| ==> PairedAt(t, j)
  }

  predicate PairedAt(t: seq<Event>, j: nat)
    requires j < |t|
  {
    && (t[j].Launch? && HasPid(StartProcess(t[j].outcome)) ==>
          j + 1 < |t| && t[j + 1].Probe? && Some(t[j + 1].pid) == StartProcess(t[j].outcome))
    && (t[j].Probe? ==>
          0 < j && t[j - 1].Launch? && StartProcess(t[j - 1].outcome) == Some(t[j].pid))
  }

  /** One attempt: launch the command, then probe what was launched. */
  datatype Attempt = Attempt(pid: Option<nat>, live: bool, cursor: Cursor, events: seq<Event>)

  /** The body of the attempt loop for attempt number `n`:
      one launch, counted with its number, and at most one probe; the
      attempt succeeds exactly when that probe finds the new pid alive. */
  function LaunchAndProbe(env: Env, n: nat, cur: Cursor): (a: Attempt)
    ensures AttemptNumbers(a.events) == [n] && TotalSleep(a.events) == 0 && Cycles(a.events) == 0
    ensures SingleLaunch(a.events) && Pauses(a.events) == 0
    ensures a.events[0] == Launch(n, env.spawn(cur.launches))
    ensures a.pid == StartProcess(env.spawn(cur.launches))
    ensures a.live <==> HasPid(a.pid) && LiveAnswer(env.table(cur.queries, a.pid.value))
    ensures a.cursor == Cursor(cur.launches + 1, if HasPid(a.pid) then cur.queries + 1 else cur.queries)
    ensures a.live ==> HasPid(a.pid) && EndsLive(a.events, a.pid.value)
    ensures a.live ==> NoLiveProbe(a.events[..|a.events| - 1])
    ensures !a.live ==> NoLiveProbe(a.events)
  {
    var outcome := env.spawn(cur.launches);
    var pid := StartProcess(outcome);
    var probed := ProbeStep(env, pid, cur.(launches := cur.launches + 1));
    var events := [Launch(n, outcome)] + probed.events;
    Distribute([Launch(n, outcome)], probed.events);
    PausesAdd([Launch(n, outcome)], probed.events);
    OnlyProbesCount(probed.events);
    assert events[1..] == probed.events;
    Attempt(pid, Truthy(probed.running), probed.cursor, events)
  }

  /** Attempts `i + 1` to `numAttempts` of the policy's loop. */
  function Attempts(cfg: Config, env: Env, i: nat, cur: Cursor): Restarted
    requires i <= cfg.numAttempts
    decreases cfg.numAttempts - i
  {
    if i == cfg.numAttempts then Restarted(None, cur, [])
    else
      var a := LaunchAndProbe(env, i + 1, cur);
      if a.live then Restarted(a.pid, a.cursor, a.events)
      else
        var pause := if i < cfg.numAttempts then [Sleep(cfg.secondsBetweenRestarts)] else [];
        Then(a.events + pause, Attempts(cfg, env, i + 1, a.cursor))
  }

  /** What attempts `i + 1` onwards promise: no restart cycle of their own,
      consecutive attempt numbers, every launch but the first right after a
      pause of `secondsBetweenRestarts`, and either a pid that probed alive
      right after its launch (with one pause per earlier failure) or
      exhaustion of the remaining budget with one pause per attempt. */
  predicate AttemptsOutcome(cfg: Config, i: nat, r: Restarted)
    requires i <= cfg.numAttempts
  {
    && Cycles(r.trace) == 0
    && Paced(r.trace, 0, cfg.secondsBetweenRestarts)
    && AttemptNumbers(r.trace) == Consecutive(i + 1, |AttemptNumbers(r.trace)|)
    && (r.pid.Some? ==> StartedOutcome(cfg, i, r))
    && (r.pid.None? ==> ExhaustedOutcome(cfg, i, r))
  }

  predicate StartedOutcome(cfg: Config, i: nat, r: Restarted)
    requires i <= cfg.numAttempts
  {
    && HasPid(r.pid)
    && EndsLive(r.trace, r.pid.value)
    && NoLiveProbe(r.trace[..|r.trace| - 1])
    && 1 <= |AttemptNumbers(r.trace)| <= cfg.numAttempts - i
    && Pauses(r.trace) == |AttemptNumbers(r.trace)| - 1
    && TotalSleep(r.trace) == (|AttemptNumbers(r.trace)| - 1) * cfg.secondsBetweenRestarts
  }

  predicate ExhaustedOutcome(cfg: Config, i: nat, r: Restarted)
    requires i <= cfg.numAttempts
  {
    && NoLiveProbe(r.trace)
    && |AttemptNumbers(r.trace)| == cfg.numAttempts - i
    && Pauses(r.trace) == cfg.numAttempts - i
    && TotalSleep(r.trace) == (cfg.numAttempts - i) * cfg.secondsBetweenRestarts
  }

  lemma {:induction false} AttemptsSpec(cfg: Config, env: Env, i: nat, cur: Cursor)
    requires i <= cfg.numAttempts
    ensures AttemptsOutcome(cfg, i, Attempts(cfg, env, i, cur))
    ensures var r := Attempts(cfg, env, i, cur);
      Replays(env, cur, r.trace, r.cursor) && Paired(r.trace)
    decreases cfg.numAttempts - i
  {
    AttemptsReplay(cfg, env, i, cur);
    if i < cfg.numAttempts {
      var a := LaunchAndProbe(env, i + 1, cur);
      if !a.live {
        var rest := Attempts(cfg, env, i + 1, a.cursor);
        AttemptsSpec(cfg, env, i + 1, a.cursor);
        FailedAttemptThen(cfg, i, a.events, rest);
        assert Attempts(cfg, env, i, cur) == Then(a.events + [Sleep(cfg.secondsBetweenRestarts)], rest);
      } else {
        LiveAttemptOutcome(cfg, i, a);
        assert Attempts(cfg, env, i, cur) == Restarted(a.pid, a.cursor, a.events);
      }
    }
  }

  /** An attempt that probes its pid alive ends the attempts with a started
      outcome. */
  lemma LiveAttemptOutcome(cfg: Config, i: nat, a: Attempt)
    requires i < cfg.numAttempts
    requires AttemptNumbers(a.events) == [i + 1] && TotalSleep(a.events) == 0 && Cycles(a.events) == 0
    requires SingleLaunch(a.events) && Pauses(a.events) == 0
    requires a.live ==> HasPid(a.pid) && EndsLive(a.events, a.pid.value)
    requires a.live ==> NoLiveProbe(a.events[..|a.events| - 1])
    requires a.live
    ensures AttemptsOutcome(cfg, i, Restarted(a.pid, a.cursor, a.events))
  {
    SingleLaunchPaced(a.events, cfg.secondsBetweenRestarts);
  }

  /** Attempts `i + 1` onwards record exactly what the oracle answered,
      in order, and probe each real pid right after launching it. */
  lemma {:induction false} AttemptsReplay(cfg: Config, env: Env, i: nat, cur: Cursor)
    requires i <= cfg.numAttempts
    ensures var r := Attempts(cfg, env, i, cur);
      Replays(env, cur, r.trace, r.cursor) && Paired(r.trace)
    decreases cfg.numAttempts - i
  {
    if i < cfg.numAttempts {
      var a := LaunchAndProbe(env, i + 1, cur);
      AttemptReplays(env, i + 1, cur);
      if !a.live {
        AttemptsReplay(cfg, env, i + 1, a.cursor);
        ReplaysAfterFailure(env, cur, a.events, a.cursor, cfg.secondsBetweenRestarts,
                            Attempts(cfg, env, i + 1, a.cursor));
      }
    }
  }

  /** A failed attempt and its pause in front of later attempts that
      replay the oracle and pair launches with probes do the same. */
  lemma ReplaysAfterFailure(env: Env, cur: Cursor, attempt: seq<Event>, mid: Cursor, d: nat, rest: Restarted)
    requires SingleLaunch(attempt) && Paired(attempt) && Replays(env, cur, attempt, mid)
    requires Replays(env, mid, rest.trace, rest.cursor) && Paired(rest.trace)
    ensures var t := Then(attempt + [Sleep(d)], rest).trace;
      Replays(env, cur, t, rest.cursor) && Paired(t)
  {
    var pause := [Sleep(d)];
    assert pause[1..] == [];
    ReplaysJoin(env, cur, attempt, mid, pause, mid);
    ReplaysJoin(env, cur, attempt + pause, mid, rest.trace, rest.cursor);
    PairedJoin(attempt, d, rest.trace);
  }

  /** One attempt records the spawn outcome and the table answer it used,
      and probes a real pid right after launching it. */
  lemma AttemptReplays(env: Env, n: nat, cur: Cursor)
    ensures var a := LaunchAndProbe(env, n, cur);
      Replays(env, cur, a.events, a.cursor) && Paired(a.events)
  {
    var a := LaunchAndProbe(env, n, cur);
    var next := cur.(launches := cur.launches + 1);
    var probed := ProbeStep(env, a.pid, next);
    ProbeReplays(env, a.pid, next);
    assert a.events[1..] == probed.events;
  }

  /** A failed attempt and its pause in front of paired later attempts
      keep launches and probes paired. */
  lemma PairedJoin(attempt: seq<Event>, d: nat, rest: seq<Event>)
    requires SingleLaunch(attempt) && Paired(attempt) && Paired(rest)
    ensures Paired(attempt + [Sleep(d)] + rest)
  {
    var t := attempt + [Sleep(d)] + rest;
    var n := |attempt|;
    forall j | 0 <= j < |t| ensures PairedAt(t, j) {
      if j < n {
        assert PairedAt(attempt, j);
        if j + 1 < n {
          assert t[j + 1] == attempt[j + 1];
        }
        if 0 < j {
          assert t[j - 1] == attempt[j - 1];
        }
      } else if j > n {
        assert PairedAt(rest, j - n - 1);
        assert t[j] == rest[j - n - 1];
        if j - n - 1 + 1 < |rest| {
          assert t[j + 1] == rest[j - n];
        }
        if j > n + 1 {
          assert t[j - 1] == rest[j - n - 2];
        }
      }
    }
  }

  /** A failed attempt and its pause, followed by the outcome of the later
      attempts, is an outcome of attempts `i + 1` onwards. */
  lemma FailedAttemptThen(cfg: Config, i: nat, attempt: seq<Event>, rest: Restarted)
    requires i < cfg.numAttempts
    requires AttemptNumbers(attempt) == [i + 1] && TotalSleep(attempt) == 0 && Cycles(attempt) == 0
    requires SingleLaunch(attempt) && Pauses(attempt) == 0
    requires NoLiveProbe(attempt)
    requires AttemptsOutcome(cfg, i + 1, rest)
    ensures AttemptsOutcome(cfg, i, Then(attempt + [Sleep(cfg.secondsBetweenRestarts)], rest))
  {
    var pre := attempt + [Sleep(cfg.secondsBetweenRestarts)];
    PausedAttempt(attempt, cfg.secondsBetweenRestarts, rest.trace);
    Distribute(attempt, [Sleep(cfg.secondsBetweenRestarts)]);
    NoLiveProbeJoin(attempt, [Sleep(cfg.secondsBetweenRestarts)]);
    Distribute(pre, rest.trace);
    if rest.pid.Some? {
      FailedThenStarted(cfg, i, pre, rest);
    } else {
      FailedThenExhausted(cfg, i, pre, rest);
    }
  }

  lemma FailedThenStarted(cfg: Config, i: nat, pre: seq<Event>, rest: Restarted)
    requires i < cfg.numAttempts
    requires AttemptNumbers(pre) == [i + 1] && TotalSleep(pre) == cfg.secondsBetweenRestarts
    requires Pauses(pre) == 1 && Pauses(pre + rest.trace) == 1 + Pauses(rest.trace)
    requires NoLiveProbe(pre)
    requires rest.pid.Some? && StartedOutcome(cfg, i + 1, rest)
    requires AttemptNumbers(pre + rest.trace) == AttemptNumbers(pre) + AttemptNumbers(rest.trace)
    requires TotalSleep(pre + rest.trace) == TotalSleep(pre) + TotalSleep(rest.trace)
    ensures StartedOutcome(cfg, i, Then(pre, rest))
  {
    var t := pre + rest.trace;
    var k := |AttemptNumbers(rest.trace)|;
    MulStep(k - 1, cfg.secondsBetweenRestarts);
    NoLiveProbeJoin(pre, rest.trace[..|rest.trace| - 1]);
    assert t[..|t| - 1] == pre + rest.trace[..|rest.trace| - 1];
    assert t[|t| - 1] == rest.trace[|rest.trace| - 1];
    assert t[|t| - 2] == rest.trace[|rest.trace| - 2];
  }

  lemma FailedThenExhausted(cfg: Config, i: nat, pre: seq<Event>, rest: Restarted)
    requires i < cfg.numAttempts
    requires AttemptNumbers(pre) == [i + 1] && TotalSleep(pre) == cfg.secondsBetweenRestarts
    requires Pauses(pre) == 1 && Pauses(pre + rest.trace) == 1 + Pauses(rest.trace)
    requires NoLiveProbe(pre)
    requires rest.pid.None? && ExhaustedOutcome(cfg, i + 1, rest)
    requires AttemptNumbers(pre + rest.trace) == AttemptNumbers(pre) + AttemptNumbers(rest.trace)
    requires TotalSleep(pre + rest.trace) == TotalSleep(pre) + TotalSleep(rest.trace)
    ensures ExhaustedOutcome(cfg, i, Then(pre, rest))
  {
    MulStep(cfg.numAttempts - i - 1, cfg.secondsBetweenRestarts);
    NoLiveProbeJoin(pre, rest.trace);
  }

  /** A failed attempt followed by its pause adds one pause in front of
      the later attempts and keeps their launches paced. */
  lemma PausedAttempt(attempt: seq<Event>, d: nat, rest: seq<Event>)
    requires SingleLaunch(attempt) && Pauses(attempt) == 0 && Paced(rest, 0, d)
    ensures Pauses(attempt + [Sleep(d)]) == 1
    ensures Pauses(attempt + [Sleep(d)] + rest) == 1 + Pauses(rest)
    ensures Paced(attempt + [Sleep(d)] + rest, 0, d)
  {
    PacedJoin(attempt, d, rest);
    assert [Sleep(d)][1..] == [];
    PausesAdd(attempt, [Sleep(d)]);
    PausesAdd(attempt + [Sleep(d)], rest);
  }

  /** The events of one attempt are paced: no pause, one launch, first. */
  lemma SingleLaunchPaced(t: seq<Event>, d: nat)
    requires SingleLaunch(t)
    ensures Paced(t, 0, d)
  {
    forall j | 0 <= j < |t| ensures PacedAt(t, 0, d, j) {
      if 0 < j {
        assert t[j] == t[1..][j - 1];
      }
    }
  }

  /** A failed attempt and its pause, in front of paced later attempts,
      keep the launches paced. */
  lemma PacedJoin(attempt: seq<Event>, d: nat, rest: seq<Event>)
    requires SingleLaunch(attempt) && Paced(rest, 0, d)
    ensures Paced(attempt + [Sleep(d)] + rest, 0, d)
  {
    var t := attempt + [Sleep(d)] + rest;
    var n := |attempt|;
    SingleLaunchPaced(attempt, d);
    forall j | 0 <= j < |t| ensures PacedAt(t, 0, d, j) {
      if j < n {
        assert PacedAt(attempt, 0, d, j);
        assert t[j] == attempt[j];
        if 0 < j {
          assert t[j - 1] == attempt[j - 1];
        }
      } else if j == n {
        assert t[j] == Sleep(d);
      } else {
        assert PacedAt(rest, 0, d, j - n - 1);
        assert t[j] == rest[j - n - 1];
        if j > n + 1 {
          assert t[j - 1] == rest[j - n - 2];
        } else {
          assert t[j - 1] == Sleep(d);
        }
      }
    }
  }

  lemma MulStep(a: int, d: int)
    ensures (a + 1) * d == a * d + d
  {
  }

  lemma MulAdd(n: int, a: int, b: int)
    ensures n * a + n * b == n * (a + b)
  {
  }

  lemma NoLiveProbeJoin(a: seq<Event>, b: seq<Event>)
    requires NoLiveProbe(a) && NoLiveProbe(b)
    ensures NoLiveProbe(a + b)
  {
    forall j | 0 <= j < |a + b| && (a + b)[j].Probe?
      ensures !LiveAnswer((a + b)[j].answer)
    {
      if j >= |a| {
        assert (a + b)[j] == b[j - |a|];
      }
    }
  }

  /** One call of `attempt_to_start_process`. */
  function AttemptToStart(cfg: Config, env: Env, cur: Cursor): Restarted {
    Then([CycleStart], Attempts(cfg, env, 0, cur))
  }

  /** The restart policy's promises for one call: a single cycle whose
      attempts are numbered from 1, at most `numAttempts` launches, each
      launch after the first right after a pause of
      `secondsBetweenRestarts`, and either the pid of a launch that probed
      alive immediately before returning (one pause per earlier failure),
      or `None` after exactly `numAttempts` launches, none of which probed
      alive, and one pause after each. */
  lemma RestartPolicy(cfg: Config, env: Env, cur: Cursor)
    ensures var r := AttemptToStart(cfg, env, cur);
      && |r.trace| > 0 && r.trace[0] == CycleStart && Cycles(r.trace) == 1
      && AttemptNumbers(r.trace) == Consecutive(1, |AttemptNumbers(r.trace)|)
      && |AttemptNumbers(r.trace)| <= cfg.numAttempts
      && Paced(r.trace, 1, cfg.secondsBetweenRestarts)
      && Replays(env, cur, r.trace, r.cursor)
      && Paired(r.trace)
      && (r.pid.Some? ==>
            && HasPid(r.pid)
            && EndsLive(r.trace, r.pid.value)
            && NoLiveProbe(r.trace[..|r.trace| - 1])
            && Pauses(r.trace) == |AttemptNumbers(r.trace)| - 1
            && TotalSleep(r.trace) == (|AttemptNumbers(r.trace)| - 1) * cfg.secondsBetweenRestarts)
      && (r.pid.None? <==> NoLiveProbe(r.trace))
      && (r.pid.None? ==>
            && |AttemptNumbers(r.trace)| == cfg.numAttempts
            && Pauses(r.trace) == cfg.numAttempts
            && TotalSleep(r.trace) == cfg.numAttempts * cfg.secondsBetweenRestarts)
  {
    var r := Attempts(cfg, env, 0, cur);
    AttemptsSpec(cfg, env, 0, cur);
    assert AttemptToStart(cfg, env, cur) == Then([CycleStart], r);
    OpenCycle(cfg, env, cur, r);
  }

  /** Opening the cycle in front of the outcome of all attempts. */
  lemma OpenCycle(cfg: Config, env: Env, cur: Cursor, a: Restarted)
    requires AttemptsOutcome(cfg, 0, a)
    requires Replays(env, cur, a.trace, a.cursor) && Paired(a.trace)
    ensures var r := Then([CycleStart], a);
      && |r.trace| > 0 && r.trace[0] == CycleStart && Cycles(r.trace) == 1
      && AttemptNumbers(r.trace) == Consecutive(1, |AttemptNumbers(r.trace)|)
      && |AttemptNumbers(r.trace)| <= cfg.numAttempts
      && Paced(r.trace, 1, cfg.secondsBetweenRestarts)
      && Replays(env, cur, r.trace, r.cursor)
      && Paired(r.trace)
      && (r.pid.Some? ==>
            && HasPid(r.pid)
            && EndsLive(r.trace, r.pid.value)
            && NoLiveProbe(r.trace[..|r.trace| - 1])
            && Pauses(r.trace) == |AttemptNumbers(r.trace)| - 1
            && TotalSleep(r.trace) == (|AttemptNumbers(r.trace)| - 1) * cfg.secondsBetweenRestarts)
      && (r.pid.None? <==> NoLiveProbe(r.trace))
      && (r.pid.None? ==>
            && |AttemptNumbers(r.trace)| == cfg.numAttempts
            && Pauses(r.trace) == cfg.numAttempts
            && TotalSleep(r.trace) == cfg.numAttempts * cfg.secondsBetweenRestarts)
  {
    Distribute([CycleStart], a.trace);
    assert [CycleStart][1..] == [];
    PausesAdd([CycleStart], a.trace);
    PacedAfterCycleStart(a.trace, cfg.secondsBetweenRestarts);
    PairedAfterCycleStart(a.trace);
    ReplaysJoin(env, cur, [CycleStart], cur, a.trace, a.cursor);
    if a.pid.None? {
      NoLiveProbeJoin([CycleStart], a.trace);
    } else {
      StartedAfterCycleStart(cfg, a);
    }
  }

  /** Opening the cycle in front of a started outcome keeps its live end
      and the absence of any earlier live probe. */
  lemma StartedAfterCycleStart(cfg: Config, r: Restarted)
    requires r.pid.Some? && StartedOutcome(cfg, 0, r)
    ensures var t := [CycleStart] + r.trace;
      EndsLive(t, r.pid.value) && NoLiveProbe(t[..|t| - 1])
  {
    var t := [CycleStart] + r.trace;
    assert t[|t| - 1] == r.trace[|r.trace| - 1];
    assert t[|t| - 2] == r.trace[|r.trace| - 2];
    assert t[..|t| - 1] == [CycleStart] + r.trace[..|r.trace| - 1];
    NoLiveProbeJoin([CycleStart], r.trace[..|r.trace| - 1]);
  }

  lemma PacedAfterCycleStart(t: seq<Event>, d: nat)
    requires Paced(t, 0, d)
    ensures Paced([CycleStart] + t, 1, d)
  {
    var u := [CycleStart] + t;
    forall j | 0 <= j < |u| ensures PacedAt(u, 1, d, j) {
      if 0 < j {
        assert PacedAt(t, 0, d, j - 1);
        assert u[j] == t[j - 1];
        if j > 1 {
          assert u[j - 1] == t[j - 2];
        }
      }
    }
  }

  lemma PairedAfterCycleStart(t: seq<Event>)
    requires Paired(t)
    ensures Paired([CycleStart] + t)
  {
    var u := [CycleStart] + t;
    forall j | 0 <= j < |u| ensures PairedAt(u, j) {
      if 0 < j {
        assert PairedAt(t, j - 1);
        assert u[j] == t[j - 1];
        if j < |t| {
          assert u[j + 1] == t[j];
        }
        if j > 1 {
          assert u[j - 1] == t[j - 2];
        }
      }
    }
  }

  /** On exhaustion the last thing the policy does is sleep: the guard meant
      to skip the pause after the final attempt never fails, so the total
      delay is `numAttempts` pauses, not `numAttempts - 1`. */
  lemma ExhaustionSleepsAfterLastAttempt(cfg: Config, env: Env, cur: Cursor)
    ensures var r := AttemptToStart(cfg, env, cur);
      r.pid.None? ==>
        && r.trace[|r.trace| - 1] == Sleep(cfg.secondsBetweenRestarts)
        && TotalSleep(r.trace) == (cfg.numAttempts - 1) * cfg.secondsBetweenRestarts + cfg.secondsBetweenRestarts
  {
    var r := Attempts(cfg, env, 0, cur);
    AttemptsEndWithSleep(cfg, env, 0, cur);
    RestartPolicy(cfg, env, cur);
    assert AttemptToStart(cfg, env, cur).trace == [CycleStart] + r.trace;
    MulStep(cfg.numAttempts - 1, cfg.secondsBetweenRestarts);
  }

  lemma {:induction false} AttemptsEndWithSleep(cfg: Config, env: Env, i: nat, cur: Cursor)
    requires i < cfg.numAttempts
    ensures var r := Attempts(cfg, env, i, cur);
      r.pid.None? ==> |r.trace| > 0 && r.trace[|r.trace| - 1] == Sleep(cfg.secondsBetweenRestarts)
    decreases cfg.numAttempts - i
  {
    var a := LaunchAndProbe(env, i + 1, cur);
    if !a.live && i + 1 < cfg.numAttempts {
      AttemptsEndWithSleep(cfg, env, i + 1, a.cursor);
    }
  }

  /** A first launch that probes alive is returned at once: one launch,
      one probe, no pause. */
  lemma FirstAttemptLive(cfg: Config, env: Env, cur: Cursor, p: nat)
    requires p > 0
    requires env.spawn(cur.launches) == Spawned(p)
    requires LiveAnswer(env.table(cur.queries, p))
    ensures var r := AttemptToStart(cfg, env, cur);
      && r.pid == Some(p)
      && r.cursor == Cursor(cur.launches + 1, cur.queries + 1)
      && Cycles(r.trace) == 1
      && AttemptNumbers(r.trace) == [1]
      && TotalSleep(r.trace) == 0
  {
    var a := LaunchAndProbe(env, 1, cur);
    assert a.live;
    Distribute([CycleStart], a.events);
  }

  /** A first launch that yields no process does not end the policy: the
      second launch is made after one pause, and a pid it yields that probes
      alive is returned. */
  lemma SecondAttemptLive(cfg: Config, env: Env, cur: Cursor, p: nat)
    requires cfg.numAttempts >= 2
    requires !HasPid(StartProcess(env.spawn(cur.launches)))
    requires p > 0 && env.spawn(cur.launches + 1) == Spawned(p)
    requires LiveAnswer(env.table(cur.queries, p))
    ensures var r := AttemptToStart(cfg, env, cur);
      && r.pid == Some(p)
      && r.cursor == Cursor(cur.launches + 2, cur.queries + 1)
      && AttemptNumbers(r.trace) == [1, 2]
      && TotalSleep(r.trace) == cfg.secondsBetweenRestarts
  {
    var a1 := LaunchAndProbe(env, 1, cur);
    assert !a1.live && a1.cursor == cur.(launches := cur.launches + 1);
    var a2 := LaunchAndProbe(env, 2, a1.cursor);
    assert a2.live;
    var r := Attempts(cfg, env, 0, cur);
    var pause := [Sleep(cfg.secondsBetweenRestarts)];
    assert Attempts(cfg, env, 1, a1.cursor) == Restarted(a2.pid, a2.cursor, a2.events);
    assert r == Then(a1.events + pause, Attempts(cfg, env, 1, a1.cursor));
    assert pause[1..] == [];
    Distribute(a1.events, pause);
    Distribute(a1.events + pause, a2.events);
    Distribute([CycleStart], r.trace);
  }

  /** Nothing the oracle launches is ever seen alive. */
  ghost predicate NeverLive(env: Env) {
    forall q: nat, p: nat :: !LiveAnswer(env.table(q, p))
  }

  /** No launch ever succeeds (for instance, the executable does not exist). */
  ghost predicate NeverSpawns(env: Env) {
    forall k: nat :: !env.spawn(k).Spawned?
  }

  /** When no launch can produce a live process, every call of the policy
      gives up after the full budget. */
  lemma HopelessExhausts(cfg: Config, env: Env, cur: Cursor)
    requires NeverLive(env) || NeverSpawns(env)
    ensures AttemptToStart(cfg, env, cur).pid.None?
  {
    AttemptsHopeless(cfg, env, 0, cur);
  }

  lemma {:induction false} AttemptsHopeless(cfg: Config, env: Env, i: nat, cur: Cursor)
    requires i <= cfg.numAttempts
    requires NeverLive(env) || NeverSpawns(env)
    ensures Attempts(cfg, env, i, cur).pid.None?
    decreases cfg.numAttempts - i
  {
    if i < cfg.numAttempts {
      var a := LaunchAndProbe(env, i + 1, cur);
      assert !a.live;
      AttemptsHopeless(cfg, env, i + 1, a.cursor);
    }
  }

  /** `attempt_to_start_process` as written: a counted loop with an early
      return on the first pid that probes alive. */
  method AttemptToStartProcess(cfg: Config, env: Env, start: Cursor)
    returns (pid: Option<nat>, cur: Cursor, trace: seq<Event>)
    ensures Restarted(pid, cur, trace) == AttemptToStart(cfg, env, start)
  {
    trace := [CycleStart];
    cur := start;
    ghost var goal := AttemptToStart(cfg, env, start);
    for n := 0 to cfg.numAttempts
      invariant goal == Then(trace, Attempts(cfg, env, n, cur))
    {
      var a := LaunchAndProbe(env, n + 1, cur);
      pid := a.pid;
      if a.live {
        cur, trace := a.cursor, trace + a.events;
        return;
      }
      var pause := if n < cfg.numAttempts then [Sleep(cfg.secondsBetweenRestarts)] else [];
      ThenThen(trace, a.events + pause, Attempts(cfg, env, n + 1, a.cursor));
      cur, trace := a.cursor, trace + (a.events + pause);
    }
    pid := None;
  }
}

=== FILE: trace.dfy ===
/** The environment the supervisor runs in, and the trace of its effects.

    The environment is an oracle: `spawn(k)` is the outcome of the k-th launch
    and `table(q, pid)` the process table's answer to the q-th query, about
    `pid`. A `Cursor` counts how much of the oracle has been used. The
    supervisor's observable effects are recorded as `Event`s. */
module Trace {
  import opened Wrappers
  import opened Process

  datatype Env = Env(spawn: nat -> SpawnOutcome, table: (nat, nat) -> Lookup)

  /** Launches and process-table queries used so far. */
  datatype Cursor = Cursor(launches: nat, queries: nat)

  datatype Event =
    | CycleStart                                 // a restart cycle begins ("Attempting to run command")
    | Launch(attempt: nat, outcome: SpawnOutcome) // attempt number as logged, and the spawn's outcome
    | Probe(pid: nat, answer: Lookup)            // one process-table query
    | Sleep(seconds: nat)

  /** The attempt numbers of the launches in `t`, in order. */
  function AttemptNumbers(t: seq<Event>): seq<nat> {
    if |t| == 0 then []
    else (if t[0].Launch? then [t[0].attempt] else []) + AttemptNumbers(t[1..])
  }

  function TotalSleep(t: seq<Event>): nat {
    if |t| == 0 then 0
    else (if t[0].Sleep? then t[0].seconds else 0) + TotalSleep(t[1..])
  }

  function Cycles(t: seq<Event>): nat {
    if |t| == 0 then 0
    else (if t[0].CycleStart? then 1 else 0) + Cycles(t[1..])
  }

  predicate NoLiveProbe(t: seq<Event>) {
    forall j :: 0 <= j < |t| && t[j].Probe? ==> !LiveAnswer(t[j].answer)
  }

  /** `n` consecutive numbers starting at `from`. */
  function Consecutive(from: nat, n: nat): seq<nat>
    decreases n
  {
    if n == 0 then [] else [from] + Consecutive(from + 1, n - 1)
  }

  lemma {:induction false} Distribute(a: seq<Event>, b: seq<Event>)
    ensures AttemptNumbers(a + b) == AttemptNumbers(a) + AttemptNumbers(b)
    ensures TotalSleep(a + b) == TotalSleep(a) + TotalSleep(b)
    ensures Cycles(a + b) == Cycles(a) + Cycles(b)
  {
    if |a| > 0 {
      assert (a + b)[1..] == a[1..] + b;
      Distribute(a[1..], b);
    } else {
      assert a + b == b;
    }
  }

  /** The number of pauses in `t`. */
  function Pauses(t: seq<Event>): nat {
    if |t| == 0 then 0
    else (if t[0].Sleep? then 1 else 0) + Pauses(t[1..])
  }

  lemma {:induction false} PausesAdd(a: seq<Event>, b: seq<Event>)
    ensures Pauses(a + b) == Pauses(a) + Pauses(b)
  {
    if |a| > 0 {
      assert (a + b)[1..] == a[1..] + b;
      PausesAdd(a[1..], b);
    } else {
      assert a + b == b;
    }
  }

  /** Pauses space the launches of `t`: every pause lasts `d` seconds, and
      every launch after position `from` comes right after a pause. */
  predicate Paced(t: seq<Event>, from: nat, d: nat) {
    forall j :: 0 <= j < |t| ==> PacedAt(t, from, d, j)
  }

  predicate PacedAt(t: seq<Event>, from: nat, d: nat, j: nat)
    requires j < |t|
  {
    && (t[j].Sleep? ==> t[j] == Sleep(d))
    && (from < j && t[j].Launch? ==> t[j - 1] == Sleep(d))
  }

  predicate OnlyProbes(t: seq<Event>) {
    forall j :: 0 <= j < |t| ==> t[j].Probe?
  }

  lemma {:induction false} OnlyProbesCount(t: seq<Event>)
    requires OnlyProbes(t)
    ensures AttemptNumbers(t) == [] && TotalSleep(t) == 0 && Cycles(t) == 0 && Pauses(t) == 0
  {
    if |t| > 0 {
      OnlyProbesCount(t[1..]);
    }
  }

  /** Probes before or after a trace change none of its counts. */
  lemma ProbesAround(a: seq<Event>, b: seq<Event>, c: seq<Event>)
    requires OnlyProbes(a) && OnlyProbes(c)
    ensures AttemptNumbers(a + b + c) == AttemptNumbers(b)
    ensures TotalSleep(a + b + c) == TotalSleep(b)
    ensures Cycles(a + b + c) == Cycles(b)
  {
    OnlyProbesCount(a);
    OnlyProbesCount(c);
    Distribute(a, b);
    Distribute(a + b, c);
  }

  /** Probes before or after a trace do not change its pauses. */
  lemma PausesAround(a: seq<Event>, b: seq<Event>, c: seq<Event>)
    requires OnlyProbes(a) && OnlyProbes(c)
    ensures Pauses(a + b + c) == Pauses(b)
  {
    OnlyProbesCount(a);
    OnlyProbesCount(c);
    PausesAdd(a, b);
    PausesAdd(a + b, c);
  }

  /** The cursor after the oracle has answered for `e`. */
  function Advance(c: Cursor, e: Event): Cursor {
    match e
    case Launch(_, _) => c.(launches := c.launches + 1)
    case Probe(_, _) => c.(queries := c.queries + 1)
    case _ => c
  }

  /** `e` records what the oracle answers at cursor `c`. */
  predicate Agrees(env: Env, c: Cursor, e: Event) {
    && (e.Launch? ==> e.outcome == env.spawn(c.launches))
    && (e.Probe? ==> e.answer == env.table(c.queries, e.pid))
  }

  /** `t` replays the oracle from cursor `c` to cursor `d`: each launch
      records the next spawn outcome and each probe the next process-table
      answer about its pid, in the order they were used. */
  predicate Replays(env: Env, c: Cursor, t: seq<Event>, d: Cursor)
    decreases |t|
  {
    if |t| == 0 then c == d
    else Agrees(env, c, t[0]) && Replays(env, Advance(c, t[0]), t[1..], d)
  }

  lemma {:induction false} ReplaysJoin(env: Env, c: Cursor, a: seq<Event>, m: Cursor, b: seq<Event>, d: Cursor)
    requires Replays(env, c, a, m) && Replays(env, m, b, d)
    ensures Replays(env, c, a + b, d)
    decreases |a|
  {
    if |a| > 0 {
      assert (a + b)[1..] == a[1..] + b;
      ReplaysJoin(env, Advance(c, a[0]), a[1..], m, b, d);
    } else {
      assert a + b == b;
    }
  }

  /** A probe records the process-table answer it used. */
  lemma ProbeReplays(env: Env, pid: Option<nat>, cur: Cursor)
    ensures var r := ProbeStep(env, pid, cur); Replays(env, cur, r.events, r.cursor)
  {
    var r := ProbeStep(env, pid, cur);
    if HasPid(pid) {
      assert r.events[1..] == [];
    }
  }

  /** The result of probing a pid, and what the probe used and recorded. */
  datatype Probed = Probed(running: Option<bool>, cursor: Cursor, events: seq<Event>)

  /** One call of `is_process_running` against the environment: a falsy pid
      uses no query and records nothing; otherwise one query is used and
      recorded. */
  function ProbeStep(env: Env, pid: Option<nat>, cur: Cursor): (r: Probed)
    ensures !HasPid(pid) ==> r.running == Some(false) && r.cursor == cur && r.events == []
    ensures HasPid(pid) ==>
      && r.cursor == cur.(queries := cur.queries + 1)
      && r.events == [Probe(pid.value, env.table(cur.queries, pid.value))]
      && r.running == IsProcessRunning(pid, env.table(cur.queries, pid.value))
    ensures Truthy(r.running) <==> |r.events| == 1 && LiveAnswer(r.events[0].answer)
    ensures OnlyProbes(r.events)
  {
    if HasPid(pid) then
      var answer := env.table(cur.queries, pid.value);
      Probed(IsProcessRunning(pid, answer), cur.(queries := cur.queries + 1), [Probe(pid.value, answer)])
    else
      Probed(IsProcessRunning(pid, NoSuchProcess), cur, [])
  }
}

=== FILE: watch.dfy ===
/** The supervision loop (supervisor.py, `watch_process`).

    The loop tracks one pid, starting with none. Each iteration probes the
    pid once for the log record, probes it again to decide whether to run
    the restart policy, and probes the (possibly new) pid a third time: if
    that last probe says alive the loop sleeps `checkInterval` and goes on,
    otherwise it stops. The loop has no other exit; `Run` bounds it by a
    number of iterations.

    The iteration is written for any restart policy (a function from the
    cursor to what the policy returns), and the loop for any loop body;
    most facts about one iteration hold for every policy that keeps the
    promises of `Restart.RestartPolicy`, the facts about many iterations
    follow from facts about one, and `Run` plugs in the body of
    supervisor.py with `attempt_to_start_process` as its policy. */
module Watch {
  import opened Wrappers
  import opened CmdArgs
  import opened Process
  import opened Trace
  import opened Restart

  /** The loop's variables: the tracked pid, whether it is still active,
      and how much of the environment it has used. */
  datatype Supervisor = Supervisor(pid: Option<nat>, active: bool, cursor: Cursor)

  /** What one or more iterations leave behind and record. */
  datatype Ticked = Ticked(next: Supervisor, trace: seq<Event>)

  function Initial(): Supervisor {
    Supervisor(None, true, Cursor(0, 0))
  }

  /** The restart policy of supervisor.py, as a function of the cursor. */
  function Policy(cfg: Config, env: Env): Cursor -> Restarted {
    cur => AttemptToStart(cfg, env, cur)
  }

  /** The promises the loop relies on from one call of a restart policy. */
  predicate Obeys(cfg: Config, r: Restarted) {
    && |r.trace| > 0 && r.trace[0] == CycleStart && Cycles(r.trace) == 1
    && AttemptNumbers(r.trace) == Consecutive(1, |AttemptNumbers(r.trace)|)
    && |AttemptNumbers(r.trace)| <= cfg.numAttempts
    && Paced(r.trace, 1, cfg.secondsBetweenRestarts)
    && (r.pid.Some? ==> HasPid(r.pid))
    && (r.pid.None? ==>
          && |AttemptNumbers(r.trace)| == cfg.numAttempts
          && Pauses(r.trace) == cfg.numAttempts
          && TotalSleep(r.trace) == cfg.numAttempts * cfg.secondsBetweenRestarts)
  }

  /** `restart` keeps those promises from whatever cursor it is given. */
  ghost predicate Contract(cfg: Config, restart: Cursor -> Restarted) {
    forall cur :: Obeys(cfg, restart(cur))
  }

  /** `attempt_to_start_process` keeps the promises, from every cursor. */
  lemma PolicyMeetsContract(cfg: Config, env: Env)
    ensures Contract(cfg, Policy(cfg, env))
  {
    forall cur ensures Obeys(cfg, Policy(cfg, env)(cur)) {
      RestartPolicy(cfg, env, cur);
    }
  }

  /** One iteration of the `while supervisor_is_active` loop. */
  function Step(cfg: Config, env: Env, restart: Cursor -> Restarted, s: Supervisor): Ticked
    requires s.active
  {
    var logged := ProbeStep(env, s.pid, s.cursor);
    var checked := ProbeStep(env, s.pid, logged.cursor);
    var restarted :=
      if Truthy(checked.running) then Restarted(s.pid, checked.cursor, [])
      else restart(checked.cursor);
    var rechecked := ProbeStep(env, restarted.pid, restarted.cursor);
    var events := logged.events + checked.events + restarted.trace + rechecked.events;
    if Truthy(rechecked.running) then
      Ticked(Supervisor(restarted.pid, true, rechecked.cursor), events + [Sleep(cfg.checkInterval)])
    else
      Ticked(Supervisor(restarted.pid, false, rechecked.cursor), events)
  }

  /** Where an iteration's restart, if it runs one, starts using the
      oracle: after the two probes of a tracked pid, or at once without one. */
  function Decided(s: Supervisor): Cursor {
    if HasPid(s.pid) then s.cursor.(queries := s.cursor.queries + 2) else s.cursor
  }

  /** The loop body on any state: one iteration while active, nothing
      once stopped. */
  function Body(cfg: Config, env: Env, restart: Cursor -> Restarted): Supervisor -> Ticked {
    (s: Supervisor) => if s.active then Step(cfg, env, restart, s) else Ticked(s, [])
  }

  /** At most `fuel` passes of the loop `body` from `s`. */
  function Loop(body: Supervisor -> Ticked, s: Supervisor, fuel: nat): Ticked
    decreases fuel
  {
    if !s.active || fuel == 0 then Ticked(s, [])
    else
      var t := body(s);
      var rest := Loop(body, t.next, fuel - 1);
      Ticked(rest.next, t.trace + rest.trace)
  }

  /** The supervisor of supervisor.py, for at most `fuel` iterations. */
  function Run(cfg: Config, env: Env, s: Supervisor, fuel: nat): Ticked {
    Loop(Body(cfg, env, Policy(cfg, env)), s, fuel)
  }

  /** An iteration's trace is its probes and restart, followed by a sleep
      exactly when the iteration leaves the loop active. */
  lemma StepTrace(cfg: Config, env: Env, restart: Cursor -> Restarted, s: Supervisor, events: seq<Event>)
    requires s.active
    requires
      var logged := ProbeStep(env, s.pid, s.cursor);
      var checked := ProbeStep(env, s.pid, logged.cursor);
      var restarted :=
        if Truthy(checked.running) then Restarted(s.pid, checked.cursor, [])
        else restart(checked.cursor);
      var rechecked := ProbeStep(env, restarted.pid, restarted.cursor);
      events == logged.events + checked.events + restarted.trace + rechecked.events
    ensures var t := Step(cfg, env, restart, s);
      t.trace == if t.next.active then events + [Sleep(cfg.checkInterval)] else events
    ensures Cycles(events + [Sleep(cfg.checkInterval)]) == Cycles(events)
    ensures AttemptNumbers(events + [Sleep(cfg.checkInterval)]) == AttemptNumbers(events)
    ensures TotalSleep(events + [Sleep(cfg.checkInterval)]) == TotalSleep(events) + cfg.checkInterval
  {
    Distribute(events, [Sleep(cfg.checkInterval)]);
  }

  /** The restart policy runs in an iteration exactly when the tracked pid
      does not probe alive at the decision probe: always when there is no
      pid, otherwise when the second table query of the iteration answers
      not alive. An iteration that does not restart keeps its pid and
      launches nothing. */
  lemma StepRestartsIffDead(cfg: Config, env: Env, restart: Cursor -> Restarted, s: Supervisor)
    requires s.active && Contract(cfg, restart)
    ensures var t := Step(cfg, env, restart, s);
      && Cycles(t.trace) <= 1
      && (!HasPid(s.pid) ==> |t.trace| > 0 && t.trace[0] == CycleStart && Cycles(t.trace) == 1)
      && (HasPid(s.pid) ==>
            && |t.trace| >= 2
            && t.trace[1] == Probe(s.pid.value, env.table(s.cursor.queries + 1, s.pid.value))
            && (Cycles(t.trace) == 1 <==> !LiveAnswer(t.trace[1].answer)))
      && (Cycles(t.trace) == 0 ==> t.next.pid == s.pid && AttemptNumbers(t.trace) == [])
      && AttemptNumbers(t.trace) == Consecutive(1, |AttemptNumbers(t.trace)|)
      && |AttemptNumbers(t.trace)| <= cfg.numAttempts * Cycles(t.trace)
    ensures var t := Step(cfg, env, restart, s);
      Cycles(t.trace) == 1 ==> t.next.pid == restart(Decided(s)).pid
  {
    StepTracksRestart(cfg, env, restart, s);
    var logged := ProbeStep(env, s.pid, s.cursor);
    var checked := ProbeStep(env, s.pid, logged.cursor);
    var restarted :=
      if Truthy(checked.running) then Restarted(s.pid, checked.cursor, [])
      else restart(checked.cursor);
    var rechecked := ProbeStep(env, restarted.pid, restarted.cursor);
    var events := logged.events + checked.events + restarted.trace + rechecked.events;
    assert !Truthy(checked.running) ==> Obeys(cfg, restart(checked.cursor));
    ProbesAround(logged.events + checked.events, restarted.trace, rechecked.events);
    ProbesAround([], logged.events + checked.events, []);
    assert OnlyProbes(logged.events + checked.events);
    StepTrace(cfg, env, restart, s, events);
  }

  /** After a restart the loop tracks the pid the restart returned, and
      the iteration's trace holds the restart's trace right after the
      probes that decided it. */
  lemma StepTracksRestart(cfg: Config, env: Env, restart: Cursor -> Restarted, s: Supervisor)
    requires s.active
    ensures var t := Step(cfg, env, restart, s);
      var r := restart(Decided(s));
      var k := if HasPid(s.pid) then 2 else 0;
      (!HasPid(s.pid) || !LiveAnswer(env.table(s.cursor.queries + 1, s.pid.value))) ==>
        && t.next.pid == r.pid
        && |t.trace| >= k + |r.trace|
        && t.trace[k..k + |r.trace|] == r.trace
  {
    var logged := ProbeStep(env, s.pid, s.cursor);
    var checked := ProbeStep(env, s.pid, logged.cursor);
    var k := if HasPid(s.pid) then 2 else 0;
    assert |logged.events + checked.events| == k;
    var t := Step(cfg, env, restart, s);
    if !Truthy(checked.running) {
      var r := restart(checked.cursor);
      var rechecked := ProbeStep(env, r.pid, r.cursor);
      var events := logged.events + checked.events + r.trace + rechecked.events;
      assert t.trace[..|events|] == events;
      assert events[k..k + |r.trace|] == r.trace;
    }
  }

  /** A tracked process found dead at the decision probe is restarted from
      that point of the oracle, and the supervisor then tracks the pid the
      restart returned; it keeps running exactly when that pid probes alive
      once more. */
  lemma DeadProcessRestarted(cfg: Config, env: Env, p: nat, cur: Cursor)
    requires p > 0
    requires !LiveAnswer(env.table(cur.queries + 1, p))
    ensures var u := Run(cfg, env, Supervisor(Some(p), true, cur), 1);
      var r := AttemptToStart(cfg, env, cur.(queries := cur.queries + 2));
      && u.next.pid == r.pid
      && |u.trace| >= 2 + |r.trace|
      && u.trace[2..2 + |r.trace|] == r.trace
      && (u.next.active <==> HasPid(r.pid) && LiveAnswer(env.table(r.cursor.queries, r.pid.value)))
  {
    var s := Supervisor(Some(p), true, cur);
    var t := Step(cfg, env, Policy(cfg, env), s);
    StepTracksRestart(cfg, env, Policy(cfg, env), s);
    assert Run(cfg, env, s, 1) == Ticked(t.next, t.trace + []);
    assert t.trace + [] == t.trace;
  }

  /** An iteration keeps the loop going exactly when its last probe finds
      the tracked pid alive, and then ends by sleeping `checkInterval`. It
      stops either because the restart policy gave up (no pid, one full
      cycle of `numAttempts` launches and pauses) or because the last probe
      found the tracked pid not alive. */
  lemma StepContinuesIffLive(cfg: Config, env: Env, restart: Cursor -> Restarted, s: Supervisor)
    requires s.active && Contract(cfg, restart)
    ensures var t := Step(cfg, env, restart, s);
      && (t.next.active ==>
            && HasPid(t.next.pid)
            && |t.trace| >= 2
            && t.trace[|t.trace| - 1] == Sleep(cfg.checkInterval)
            && t.trace[|t.trace| - 2] == Probe(t.next.pid.value, t.trace[|t.trace| - 2].answer)
            && LiveAnswer(t.trace[|t.trace| - 2].answer))
      && (!t.next.active ==>
            || (&& t.next.pid.None?
                && Cycles(t.trace) == 1
                && |AttemptNumbers(t.trace)| == cfg.numAttempts
                && Pauses(t.trace) == cfg.numAttempts
                && TotalSleep(t.trace) == cfg.numAttempts * cfg.secondsBetweenRestarts)
            || (&& HasPid(t.next.pid)
                && |t.trace| > 0
                && t.trace[|t.trace| - 1] == Probe(t.next.pid.value, t.trace[|t.trace| - 1].answer)
                && !LiveAnswer(t.trace[|t.trace| - 1].answer)))
  {
    var logged := ProbeStep(env, s.pid, s.cursor);
    var checked := ProbeStep(env, s.pid, logged.cursor);
    var restarted :=
      if Truthy(checked.running) then Restarted(s.pid, checked.cursor, [])
      else restart(checked.cursor);
    var rechecked := ProbeStep(env, restarted.pid, restarted.cursor);
    var events := logged.events + checked.events + restarted.trace + rechecked.events;
    assert !Truthy(checked.running) ==> Obeys(cfg, restart(checked.cursor));
    StepTrace(cfg, env, restart, s, events);
    if !Truthy(rechecked.running) && !HasPid(restarted.pid) {
      ProbesAround(logged.events + checked.events, restarted.trace, rechecked.events);
      PausesAround(logged.events + checked.events, restarted.trace, rechecked.events);
      assert OnlyProbes(logged.events + checked.events);
    }
  }

  /** The loop starts without a pid, so its first iteration always runs the
      restart policy, before any process-table query. */
  lemma FirstTickRestarts(cfg: Config, env: Env)
    ensures var t := Run(cfg, env, Initial(), 1);
      && t.trace[0] == CycleStart
      && t.trace[1] == Launch(1, env.spawn(0))
  {
    var r := Attempts(cfg, env, 0, Cursor(0, 0));
    assert r.trace[0] == Launch(1, env.spawn(0));
    var t := Step(cfg, env, Policy(cfg, env), Initial());
    assert Run(cfg, env, Initial(), 1).trace == t.trace + [];
  }

  /** The loop can stop without trying a restart: when the tracked process
      is alive at the decision probe and gone at the probe after it, the
      iteration launches nothing and ends the loop, whatever the policy. */
  lemma StopsWithoutRestart(cfg: Config, env: Env, restart: Cursor -> Restarted, p: nat, cur: Cursor)
    requires p > 0
    requires LiveAnswer(env.table(cur.queries + 1, p))
    requires !LiveAnswer(env.table(cur.queries + 2, p))
    ensures var t := Step(cfg, env, restart, Supervisor(Some(p), true, cur));
      && !t.next.active
      && t.next.pid == Some(p)
      && Cycles(t.trace) == 0
      && AttemptNumbers(t.trace) == []
  {
    var s := Supervisor(Some(p), true, cur);
    var logged := ProbeStep(env, s.pid, s.cursor);
    var checked := ProbeStep(env, s.pid, logged.cursor);
    var rechecked := ProbeStep(env, s.pid, checked.cursor);
    var events := logged.events + checked.events + [] + rechecked.events;
    ProbesAround(logged.events + checked.events + [], [], rechecked.events);
    ProbesAround([], logged.events + checked.events, []);
    assert OnlyProbes(logged.events + checked.events);
    StepTrace(cfg, env, restart, s, events);
  }

  /** At most one restart cycle, whose attempts are numbered afresh from 1,
      and at most `numAttempts` of them; no launch without a cycle. */
  predicate OneCycle(cfg: Config, trace: seq<Event>) {
    && Cycles(trace) <= 1
    && AttemptNumbers(trace) == Consecutive(1, |AttemptNumbers(trace)|)
    && |AttemptNumbers(trace)| <= cfg.numAttempts * Cycles(trace)
  }

  /** One iteration runs at most one restart cycle, within its budget. */
  lemma StepBudget(cfg: Config, env: Env, restart: Cursor -> Restarted, s: Supervisor)
    requires s.active && Contract(cfg, restart)
    ensures OneCycle(cfg, Step(cfg, env, restart, s).trace)
  {
    StepRestartsIffDead(cfg, env, restart, s);
  }

  /** Every pass of `body` from an active state keeps within one cycle. */
  ghost predicate Budgeted(cfg: Config, body: Supervisor -> Ticked) {
    forall s: Supervisor {:trigger body(s)} :: s.active ==> OneCycle(cfg, body(s).trace)
  }

  /** Per-iteration budgets add up: over `fuel` passes there are at most
      `fuel` cycles and at most `numAttempts` times as many launches as
      cycles. */
  lemma {:induction false} LoopBudget(cfg: Config, body: Supervisor -> Ticked, s: Supervisor, fuel: nat)
    requires Budgeted(cfg, body)
    ensures var r := Loop(body, s, fuel);
      && Cycles(r.trace) <= fuel
      && |AttemptNumbers(r.trace)| <= cfg.numAttempts * Cycles(r.trace)
    decreases fuel
  {
    if s.active && fuel > 0 {
      var t := body(s);
      var rest := Loop(body, t.next, fuel - 1);
      LoopBudget(cfg, body, t.next, fuel - 1);
      var trace := Loop(body, s, fuel).trace;
      assert trace == t.trace + rest.trace;
      Distribute(t.trace, rest.trace);
      BudgetAdds(cfg.numAttempts, |AttemptNumbers(t.trace)|, |AttemptNumbers(rest.trace)|,
                 Cycles(t.trace), Cycles(rest.trace), |AttemptNumbers(trace)|, Cycles(trace));
    }
  }

  lemma BudgetAdds(n: nat, a1: nat, a2: nat, c1: nat, c2: nat, a: nat, c: nat)
    requires a1 <= n * c1 && a2 <= n * c2
    requires a == a1 + a2 && c == c1 + c2
    ensures a <= n * c
  {
    MulAdd(n, c1, c2);
  }

  /** The traces of the passes of `body` from `s` that actually run, one
      entry per pass. */
  function Passes(body: Supervisor -> Ticked, s: Supervisor, fuel: nat): seq<seq<Event>>
    decreases fuel
  {
    if !s.active || fuel == 0 then []
    else [body(s).trace] + Passes(body, body(s).next, fuel - 1)
  }

  function Concat(ps: seq<seq<Event>>): seq<Event> {
    if |ps| == 0 then [] else ps[0] + Concat(ps[1..])
  }

  /** The loop's trace is the concatenation of its passes' traces, and when
      every pass keeps within one cycle, so does each of the loop's. */
  lemma {:induction false} LoopPasses(cfg: Config, body: Supervisor -> Ticked, s: Supervisor, fuel: nat)
    requires Budgeted(cfg, body)
    ensures var ps := Passes(body, s, fuel);
      && |ps| <= fuel
      && Concat(ps) == Loop(body, s, fuel).trace
      && forall i :: 0 <= i < |ps| ==> OneCycle(cfg, ps[i])
    decreases fuel
  {
    if s.active && fuel > 0 {
      var t := body(s);
      var rest := Passes(body, t.next, fuel - 1);
      LoopPasses(cfg, body, t.next, fuel - 1);
      var ps := Passes(body, s, fuel);
      assert ps == [t.trace] + rest;
      assert ps[1..] == rest;
      assert OneCycle(cfg, t.trace);
    }
  }

  /** The supervisor of supervisor.py runs at most one restart cycle per
      iteration; each cycle numbers its attempts afresh from 1 and launches
      at most `numAttempts` processes; over the run, launches are at most
      `numAttempts` times the cycles. */
  lemma LaunchesPerCycle(cfg: Config, env: Env, s: Supervisor, fuel: nat)
    ensures var r := Run(cfg, env, s, fuel);
      var ps := Passes(Body(cfg, env, Policy(cfg, env)), s, fuel);
      && |ps| <= fuel
      && Concat(ps) == r.trace
      && (forall i :: 0 <= i < |ps| ==>
            && Cycles(ps[i]) <= 1
            && AttemptNumbers(ps[i]) == Consecutive(1, |AttemptNumbers(ps[i])|)
            && |AttemptNumbers(ps[i])| <= cfg.numAttempts * Cycles(ps[i]))
      && Cycles(r.trace) <= fuel
      && |AttemptNumbers(r.trace)| <= cfg.numAttempts * Cycles(r.trace)
  {
    var body := Body(cfg, env, Policy(cfg, env));
    PolicyMeetsContract(cfg, env);
    forall s': Supervisor | s'.active ensures OneCycle(cfg, body(s').trace) {
      StepBudget(cfg, env, Policy(cfg, env), s');
    }
    LoopBudget(cfg, body, s, fuel);
    LoopPasses(cfg, body, s, fuel);
  }

  /** When nothing launched is ever seen alive, or nothing can be launched,
      the supervisor gives up in its first iteration after exactly one
      cycle of `numAttempts` launches, each but the first right after a
      pause, and `numAttempts` pauses. */
  lemma GivesUpWhenHopeless(cfg: Config, env: Env, fuel: nat)
    requires fuel >= 1
    requires NeverLive(env) || NeverSpawns(env)
    ensures var r := Run(cfg, env, Initial(), fuel);
      && !r.next.active
      && r.next.pid.None?
      && Cycles(r.trace) == 1
      && |AttemptNumbers(r.trace)| == cfg.numAttempts
      && Paced(r.trace, 1, cfg.secondsBetweenRestarts)
      && Pauses(r.trace) == cfg.numAttempts
      && TotalSleep(r.trace) == cfg.numAttempts * cfg.secondsBetweenRestarts
  {
    HopelessRun(cfg, env, fuel);
    HopelessPolicy(cfg, env);
  }

  /** With no live launch possible, the first iteration is the policy's one
    * cycle and then stops; later passes add nothing. */
  lemma HopelessRun(cfg: Config, env: Env, fuel: nat)
    requires fuel >= 1
    requires NeverLive(env) || NeverSpawns(env)
    ensures var u := Run(cfg, env, Initial(), fuel);
      && !u.next.active
      && u.next.pid.None?
      && u.trace == AttemptToStart(cfg, env, Cursor(0, 0)).trace
  {
    var body := Body(cfg, env, Policy(cfg, env));
    var t := Step(cfg, env, Policy(cfg, env), Initial());
    HopelessExhausts(cfg, env, Cursor(0, 0));
    var r := AttemptToStart(cfg, env, Cursor(0, 0));
    assert t.trace == [] + [] + r.trace + [];
    PolicyMeetsContract(cfg, env);
    StepContinuesIffLive(cfg, env, Policy(cfg, env), Initial());
    assert !t.next.active && t.next.pid.None?;
    assert body(Initial()) == t;
    assert Loop(body, t.next, fuel - 1) == Ticked(t.next, []);
    assert t.trace + [] == t.trace;
    assert Run(cfg, env, Initial(), fuel) == t;
  }

  /** The shape of the one cycle a hopeless policy runs from the start. */
  lemma HopelessPolicy(cfg: Config, env: Env)
    requires NeverLive(env) || NeverSpawns(env)
    ensures var r := AttemptToStart(cfg, env, Cursor(0, 0));
      && Cycles(r.trace) == 1
      && |AttemptNumbers(r.trace)| == cfg.numAttempts
      && Paced(r.trace, 1, cfg.secondsBetweenRestarts)
      && Pauses(r.trace) == cfg.numAttempts
      && TotalSleep(r.trace) == cfg.numAttempts * cfg.secondsBetweenRestarts
  {
    HopelessExhausts(cfg, env, Cursor(0, 0));
    RestartPolicy(cfg, env, Cursor(0, 0));
  }

  /** Every process-table query about `p` finds it alive. */
  ghost predicate AlwaysLive(env: Env, p: nat) {
    forall q: nat :: LiveAnswer(env.table(q, p))
  }

  /** A command whose first launch never dies is launched once: after any
      number of iterations the supervisor still tracks it, has run one
      cycle with one launch, and has slept `checkInterval` per iteration. */
  lemma LongRunningLaunchesOnce(cfg: Config, env: Env, p: nat, fuel: nat)
    requires p > 0 && env.spawn(0) == Spawned(p) && AlwaysLive(env, p)
    requires fuel >= 1
    ensures var r := Run(cfg, env, Initial(), fuel);
      && r.next.active
      && r.next.pid == Some(p)
      && Cycles(r.trace) == 1
      && AttemptNumbers(r.trace) == [1]
      && TotalSleep(r.trace) == fuel * cfg.checkInterval
  {
    var body := Body(cfg, env, Policy(cfg, env));
    var t := FirstTickLaunches(cfg, env, p);
    assert body(Initial()) == t;
    var rest := Loop(body, t.next, fuel - 1);
    MonitoringSteady(cfg, env, p, t.next, fuel - 1);
    var trace := Run(cfg, env, Initial(), fuel).trace;
    assert trace == t.trace + rest.trace;
    Distribute(t.trace, rest.trace);
    SleepAdds(cfg.checkInterval, fuel, TotalSleep(rest.trace), TotalSleep(trace));
  }

  /** The first iteration when the first launch comes up alive. */
  lemma FirstTickLaunches(cfg: Config, env: Env, p: nat) returns (t: Ticked)
    requires p > 0 && env.spawn(0) == Spawned(p) && AlwaysLive(env, p)
    ensures t == Step(cfg, env, Policy(cfg, env), Initial())
    ensures t.next.active && t.next.pid == Some(p)
    ensures Cycles(t.trace) == 1 && AttemptNumbers(t.trace) == [1] && TotalSleep(t.trace) == cfg.checkInterval
  {
    var logged := ProbeStep(env, None, Cursor(0, 0));
    var restarted := AttemptToStart(cfg, env, Cursor(0, 0));
    FirstAttemptLive(cfg, env, Cursor(0, 0), p);
    var rechecked := ProbeStep(env, Some(p), restarted.cursor);
    assert Truthy(rechecked.running);
    var events := logged.events + logged.events + restarted.trace + rechecked.events;
    t := Ticked(Supervisor(Some(p), true, rechecked.cursor), events + [Sleep(cfg.checkInterval)]);
    ProbesAround(logged.events + logged.events, restarted.trace, rechecked.events);
    StepTrace(cfg, env, Policy(cfg, env), Initial(), events);
  }

  /** A pass that keeps tracking `p`, stays active, launches nothing and
      sleeps `checkInterval`. */
  predicate Steady(cfg: Config, p: nat, t: Ticked) {
    && t.next.active
    && t.next.pid == Some(p)
    && Cycles(t.trace) == 0
    && AttemptNumbers(t.trace) == []
    && TotalSleep(t.trace) == cfg.checkInterval
  }

  /** Every pass of `body` from a state tracking `p` is steady. */
  ghost predicate SteadyOn(cfg: Config, body: Supervisor -> Ticked, p: nat) {
    forall s: Supervisor {:trigger body(s)} :: s.active && s.pid == Some(p) ==> Steady(cfg, p, body(s))
  }

  /** Steady passes compose: `fuel` of them keep tracking `p`, launch
      nothing and sleep `fuel` times `checkInterval`. */
  lemma {:induction false} SteadyLoop(cfg: Config, body: Supervisor -> Ticked, p: nat, s: Supervisor, fuel: nat)
    requires SteadyOn(cfg, body, p) && s.active && s.pid == Some(p)
    ensures var r := Loop(body, s, fuel);
      && r.next.active
      && r.next.pid == Some(p)
      && Cycles(r.trace) == 0
      && AttemptNumbers(r.trace) == []
      && TotalSleep(r.trace) == fuel * cfg.checkInterval
    decreases fuel
  {
    if fuel > 0 {
      var t := body(s);
      var rest := Loop(body, t.next, fuel - 1);
      SteadyLoop(cfg, body, p, t.next, fuel - 1);
      var trace := Loop(body, s, fuel).trace;
      assert trace == t.trace + rest.trace;
      Distribute(t.trace, rest.trace);
      SleepAdds(cfg.checkInterval, fuel, TotalSleep(rest.trace), TotalSleep(trace));
    }
  }

  lemma SleepAdds(d: nat, k: nat, rest: nat, total: nat)
    requires k > 0 && rest == (k - 1) * d && total == d + rest
    ensures total == k * d
  {
    MulStep(k - 1, d);
  }

  /** While the tracked process stays alive the supervisor only probes and
      sleeps. */
  lemma MonitoringSteady(cfg: Config, env: Env, p: nat, s: Supervisor, fuel: nat)
    requires p > 0 && AlwaysLive(env, p)
    requires s.active && s.pid == Some(p)
    ensures var r := Run(cfg, env, s, fuel);
      && r.next.active
      && r.next.pid == Some(p)
      && Cycles(r.trace) == 0
      && AttemptNumbers(r.trace) == []
      && TotalSleep(r.trace) == fuel * cfg.checkInterval
  {
    var body := Body(cfg, env, Policy(cfg, env));
    forall s': Supervisor | s'.active && s'.pid == Some(p) ensures Steady(cfg, p, body(s')) {
      var t := StepWhileLive(cfg, env, Policy(cfg, env), p, s'.cursor);
      assert s' == Supervisor(Some(p), true, s'.cursor);
    }
    SteadyLoop(cfg, body, p, s, fuel);
  }

  /** An iteration on a pid that every query finds alive, whatever the
      restart policy: it never consults the policy. */
  lemma StepWhileLive(cfg: Config, env: Env, restart: Cursor -> Restarted, p: nat, cur: Cursor) returns (t: Ticked)
    requires p > 0 && AlwaysLive(env, p)
    ensures t == Step(cfg, env, restart, Supervisor(Some(p), true, cur))
    ensures Steady(cfg, p, t)
  {
    var logged := ProbeStep(env, Some(p), cur);
    var checked := ProbeStep(env, Some(p), logged.cursor);
    assert Truthy(checked.running);
    var rechecked := ProbeStep(env, Some(p), checked.cursor);
    assert Truthy(rechecked.running);
    var events := logged.events + checked.events + [] + rechecked.events;
    t := Ticked(Supervisor(Some(p), true, rechecked.cursor), events + [Sleep(cfg.checkInterval)]);
    ProbesAround(logged.events + checked.events, [], rechecked.events);
    assert OnlyProbes(logged.events + checked.events);
    StepTrace(cfg, env, restart, Supervisor(Some(p), true, cur), events);
  }

  /** One more pass extends the record of the first `k`. */
  lemma {:induction false} LoopSnoc(body: Supervisor -> Ticked, s: Supervisor, k: nat)
    requires Loop(body, s, k).next.active
    ensures var r := Loop(body, s, k);
      var t := body(r.next);
      Loop(body, s, k + 1) == Ticked(t.next, r.trace + t.trace)
    decreases k
  {
    if k > 0 {
      var t0 := body(s);
      LoopSnoc(body, t0.next, k - 1);
      var r := Loop(body, t0.next, k - 1);
      var t := body(r.next);
      assert t0.trace + (r.trace + t.trace) == (t0.trace + r.trace) + t.trace;
    }
  }

  /** Once the loop has stopped, more passes change nothing. */
  lemma {:induction false} LoopHalts(body: Supervisor -> Ticked, s: Supervisor, k: nat, m: nat)
    requires k <= m && !Loop(body, s, k).next.active
    ensures Loop(body, s, m) == Loop(body, s, k)
    decreases k
  {
    if k > 0 && s.active {
      LoopHalts(body, body(s).next, k - 1, m - 1);
    }
  }

  /** One pass of the `watch_process` loop body on an active supervisor. */
  method Supervise(cfg: Config, env: Env, pid0: Option<nat>, cur0: Cursor)
    returns (pid: Option<nat>, active: bool, cur: Cursor, events: seq<Event>)
    ensures Ticked(Supervisor(pid, active, cur), events)
         == Step(cfg, env, Policy(cfg, env), Supervisor(pid0, true, cur0))
  {
    pid, active := pid0, true;
    var logged := ProbeStep(env, pid, cur0);
    var checked := ProbeStep(env, pid, logged.cursor);
    events := logged.events + checked.events;
    cur := checked.cursor;
    if !Truthy(checked.running) {
      var restartTrace;
      pid, cur, restartTrace := AttemptToStartProcess(cfg, env, cur);
      events := events + restartTrace;
    }
    var rechecked := ProbeStep(env, pid, cur);
    cur := rechecked.cursor;
    events := events + rechecked.events;
    if Truthy(rechecked.running) {
      events := events + [Sleep(cfg.checkInterval)];
    } else {
      active := false;
    }
  }

  /** `watch_process` as written, stopped after at most `maxTicks`
      iterations. */
  method WatchProcess(cfg: Config, env: Env, maxTicks: nat) returns (final: Supervisor, trace: seq<Event>)
    ensures Ticked(final, trace) == Run(cfg, env, Initial(), maxTicks)
  {
    ghost var body := Body(cfg, env, Policy(cfg, env));
    var pid: Option<nat> := None;
    var active := true;
    var cur := Cursor(0, 0);
    trace := [];
    var ticks := 0;
    while active && ticks < maxTicks
      invariant ticks <= maxTicks
      invariant Loop(body, Initial(), ticks) == Ticked(Supervisor(pid, active, cur), trace)
      decreases maxTicks - ticks
    {
      LoopSnoc(body, Initial(), ticks);
      var events;
      pid, active, cur, events := Supervise(cfg, env, pid, cur);
      trace := trace + events;
      ticks := ticks + 1;
    }
    final := Supervisor(pid, active, cur);
    if !active {
      LoopHalts(body, Initial(), ticks, maxTicks);
    }
  }
}

=== FILE: wrappers.dfy ===
/** Failure-compatible wrappers shared by the other modules: `Option` stands
    for Python's `None`-or-value results, `Result` for a value or a raised error. */
module Wrappers {

  datatype Option<+T> = None | Some(value: T)

  datatype Result<+R, +E> = Success(value: R) | Failure(error: E) {

    predicate IsFailure() {
      Failure?
    }

    function PropagateFailure<U>(): Result<U, E>
      requires Failure?
    {
      Failure(error)
    }

    function Extract(): R
      requires Success?
    {
      value
    }
  }
}
